=== FILE: README.md ===
# Portfolio interactivity, modelled in Dafny

This project models the decision logic of the portfolio site's two scripts,
`js/script.js` and `script.js`, as pure functions over immutable records, and
proves what those rules promise. The DOM, timers and storage are left out. What
remains is a set of small state machines:

- **Contact form** (`contact_form.dfy`, `email.dfy`, `jstext.dfy`). `validateField`
  is split into the rule (`Rule`, `Check`) and the markers it leaves on a field
  (`MarkField`, `ValidateField`). The email rule is the regular expression
  `^[^\s@]+@[^\s@]+\.[^\s@]+$`, read literally, and it is proved equal to a
  shape stated in words. The submit handler is two phases (`BeginSubmit`,
  `FinishSubmit`). The simulated request is an opaque outcome, `Delivered` or
  `Failed`. `showFormMessage` counts its pending auto-hide timers.
- **Typing animator** (`typing.dfy`). The state is `(textIndex, charIndex,
  isDeleting)`, the pending pause timers and the displayed text. A tick is
  one `typeText` call. The 2-second pause firing is a separate event.
- **Navbar scroll effect** (`navbar.dfy`). This is one stored offset plus the bar's
  transform and classes.
- **Active navigation** (`active_nav.dfy`). This finds the last section whose
  half-open extent contains the probe point, then marks the links.
- **Themes** (`body_theme.dfy`, `root_theme.dfy`). These are the two toggles, which
  share the `theme` storage slot but fall back in opposite directions.
- **Card tilt** (`tilt.dfy`). This is the `mousemove`/`mouseleave` transform, over
  real numbers.

Whitespace is one predicate, `JsText.IsSpace`. It is the ECMAScript
WhiteSpace and LineTerminator set, which is what both `trim` and `\s` use. A
Dafny `char` is a Unicode scalar value, while the source's strings are UTF-16
code units. So `length` is modelled by `JsText.Utf16Length`, which counts a
character above U+FFFF twice. All the whitespace characters lie below U+FFFF,
so `trim` gives the same result on either view.

A few behaviours of the code are easy to misread. The model follows the code:

- While the pause is pending, `typeText` keeps appending, so `charIndex`
  grows past the phrase length. The display is still correct, because
  `substring` clamps. The proved invariant is that the display is the phrase cut
  at `charIndex` and clamped (`TypingAnimator.Inv`). `PendingPauseOvershoots`
  proves the overshoot in general, and `CharIndexOvershootsPhrase` shows one case.
- A stored theme that is neither `light` nor `dark` is applied verbatim at
  start-up. Only a missing or empty value falls back to `light`
  (`BodyTheme.UnknownStoredThemeIsKept`).
- The submit handler's `finally` block enables the button. It does not restore
  the button's earlier enabled state. It does restore the label.
- A field's rule is chosen by its `type` property. For an `input` without a `type`
  attribute, that property is `text`, so the two-character rule applies.

## Model

| member | source | states |
|---|---|---|
| JsText.Trim | js/script.js:303 | `trim` yields the infix after the leading whitespace, followed only by whitespace. It starts and ends with non-whitespace and is empty exactly when the value is all whitespace |
| JsText.TrimIdempotent | js/script.js:303 | trimming a trimmed value changes nothing |
| JsText.TrimUnique | js/script.js:303 | any infix that starts and ends with non-whitespace and has only whitespace around it is exactly what `trim` returns |
| JsText.TrimIgnoresPadding | js/script.js:303 | adding whitespace on either side of a value leaves its trimmed form unchanged |
| JsText.SubstringFromZeroIsPrefix | js/script.js:71-75 | `substring(0, n)` is the prefix of length `n` clamped into `[0, length]` for every integer `n`, including `-1` and values past the end |
| EmailPattern.EmailRegexIffShaped | js/script.js:317-323 | the regex accepts exactly the strings that have no whitespace and exactly one '@' with text before it, and whose part after the '@' holds a '.' that is neither its first nor its last character |
| EmailPattern.DotlessDomainRefused | js/script.js:318-319 | 'foo@bar' is refused |
| EmailPattern.ShortestAddressAccepted | js/script.js:318-319 | 'a@b.c' is accepted |
| ContactForm.Rule | js/script.js:310-336 | on a trimmed value: empty gives 'This field is required.' for every type. `email` is valid iff email-shaped, `text` needs a `length` of at least 2 UTF-16 code units, `textarea` at least 10, and any other type is valid. Each failure carries its own message, and the message is empty exactly when valid |
| JsText.Utf16Length | js/script.js:325 | `length` counts code units: it lies between the number of characters and twice that, and equals the number of characters exactly when none is above U+FFFF |
| ContactForm.AstralCharPassesTextRule | js/script.js:324-328 | a single emoji, one character but two code units, passes the two-character `text` rule |
| ContactForm.Check | js/script.js:303-313 | a value that is only whitespace is invalid with the required message for every type, and the message is empty exactly when valid |
| ContactForm.CheckIgnoresSurroundingSpace | js/script.js:303 | whitespace typed before or after a value never changes its verdict |
| ContactForm.LengthRuleBoundaries | js/script.js:324-335 | 1 character fails `text` and 2 pass. 9 characters fail `textarea` and 10 pass |
| ContactForm.EmailRuleExamples | js/script.js:311-323 | a blank email is "required", 'a@b.c' passes and 'foo@bar' fails |
| ContactForm.MarkField | js/script.js:339-348 | after marking, the field has exactly one of `is-valid`/`is-invalid`, matching the verdict, and its other classes are unchanged. The sibling gets the message only when invalid and classed `invalid-feedback`, and is otherwise untouched |
| ContactForm.ValidateField | js/script.js:302-351 | the return value is the rule's validity for the field's type and value, with the exact-one-marker and feedback-sibling guarantees stated in those terms |
| ContactForm.OnBlur | js/script.js:253 | blur always leaves exactly one marker, agreeing with the rule. The value, type and other classes are kept, and the sibling gets the message only when invalid and classed `invalid-feedback` |
| ContactForm.OnInput | js/script.js:254-258 | typing records the value. It re-validates only a field marked invalid, with the same marker, frame and sibling guarantees as blur for the new value. Otherwise only the value changes |
| ContactForm.ValidateAll | js/script.js:266-271 | every field is validated, none skipped, and the flag is true iff all of them pass |
| ContactForm.ShowFormMessage | js/script.js:353-364 | the banner shows the text with class `form-message <type>`, and only `success` schedules an auto-hide |
| ContactForm.HideTimerFires | js/script.js:359-362 | a pending auto-hide hides the banner and leaves its text |
| ContactForm.StaleHideTimerHidesLaterError | js/script.js:358-363 | a success timer still pending also hides an error shown after it |
| ContactForm.ResetField | js/script.js:288-291 | reset restores the default value and removes both markers |
| ContactForm.BeginSubmit | js/script.js:262-281 | with any invalid field, it shows 'Please fix the errors above.', with no auto-hide, and leaves the button untouched. Otherwise it saves the label and shows a disabled 'Sending...' button. Every field is validated either way |
| ContactForm.FinishSubmit | js/script.js:283-299 | on delivery it shows an auto-hiding success message and resets every field to its default value without markers, keeping its type, other classes and sibling. On failure it shows the error. Both outcomes restore the label and enable the button |
| ContactForm.Submit | js/script.js:262-300 | the whole handler. A blocked submission shows the non-hiding error and never disables the button. Every submission past validation ends with the original label, enabled. Delivery shows the auto-hiding success banner and resets each field to its default value without markers, with its type, other classes and sibling as before submission. Failure shows the error banner and leaves every field marked valid |
| TypingAnimator.TypeText | js/script.js:67-90 | delete mode takes `charIndex` down by exactly 1 with delay 50. Append mode takes it up by 1 with delay 100. Reaching 0 while deleting returns to append on phrase `(i+1) mod n`, and completing a phrase schedules one pause. The display is the phrase cut at the new index |
| TypingAnimator.FirePause | js/script.js:81-83 | the pause turns on delete mode and changes nothing else |
| TypingAnimator.StartEstablishesInv | js/script.js:62-94 | after the first call, the phrase index is in range and the display is the clamped prefix |
| TypingAnimator.TypeTextPreservesInv | js/script.js:67-89 | every tick keeps the invariant |
| TypingAnimator.FirePausePreservesInv | js/script.js:80-83 | the pause keeps the invariant and begins deleting from at least the full phrase |
| TypingAnimator.RunPreservesInv | js/script.js:67-89 | every reachable state, after any interleaving of ticks and pause events, keeps the invariant |
| TypingAnimator.ShownIsPrefix | js/script.js:68-78 | the displayed text is always a prefix of the current phrase |
| TypingAnimator.DeletionReachesNextPhrase | js/script.js:70-87 | from delete mode, exactly `charIndex` ticks empty the display and resume appending at the next phrase, wrapping around |
| TypingAnimator.AppendReachesPause | js/script.js:74-84 | from inside a non-empty phrase in append mode, exactly the missing number of ticks completes the phrase, displays it whole and schedules one pause |
| TypingAnimator.PendingPauseOvershoots | js/script.js:74-89 | while the pause is pending the whole phrase is displayed, and a further tick takes `charIndex` past the phrase length, keeps the display and schedules no second pause |
| TypingAnimator.CharIndexOvershootsPhrase | js/script.js:74-89 | an example: on the one-phrase list ["ab"], three ticks from the start give `charIndex` 3 with the pause pending and "ab" displayed |
| TypingAnimator.SitePhrasesReachPause | js/script.js:54-60 | every phrase of the site is non-empty, so each is typed to its end and paused on, and the start-up call establishes the invariant for them |
| NavbarScroll.OnScroll | js/script.js:221-240 | with `s` the offset `pageYOffset || scrollTop`: the bar is hidden iff `s > last && s > 100`. `scrolled` is present iff `s > 50`, and other classes are untouched. The stored offset is `s` when positive, otherwise 0, so never negative |
| NavbarScroll.FallbackOffsetDecides | js/script.js:222-239 | when `pageYOffset` is 0 the document's `scrollTop` alone decides hiding and the stored offset. When it is non-zero, `scrollTop` has no effect |
| NavbarScroll.HiddenImpliesScrolled | js/script.js:224-237 | a hidden bar always carries `scrolled`, and a scroll that does not go further down shows the bar |
| NavbarScroll.StoredOffsetIsLastClamped | js/script.js:219-239 | after any non-empty run of scrolls, the stored offset is the last offset clamped at 0, so never negative |
| NavbarScroll.HidingFollowsLastTwoOffsets | js/script.js:222-239 | after at least two scrolls, the bar is hidden exactly when the last offset exceeds 100 and the second-last offset clamped at 0 |
| NavbarScroll.DownHidesUpShows | js/script.js:224-230 | scrolling down past 100 hides the bar, and scrolling back up shows it |
| ActiveNav.CurrentSection | js/script.js:196-206 | the result is the id of the last section, in document order, whose `[top, top+height)` contains `offset+100`, or '' when there is none |
| ActiveNav.MarkLinks | js/script.js:208-213 | exactly the links whose href is `'#' + current` are active. Hrefs and all other classes are unchanged |
| ActiveNav.OnScroll | js/script.js:195-214 | the handler combines both steps: `current` is the last covering section's id, or '' when none covers. Exactly the links pointing at it are active, and hrefs and other classes are unchanged. With no covering section, only links with href '#' are active |
| ActiveNav.DisjointSectionsHaveOneCover | js/script.js:199-205 | for sections in order and not overlapping, any covering section is the one chosen |
| BodyTheme.SavedTheme | js/script.js:24 | a stored value that is missing or empty gives 'light', and any other stored string is used as is |
| BodyTheme.UpdateIcons | js/script.js:29-33 | every icon present gets the same class: 'fas fa-sun' for 'dark' and 'fas fa-moon' for every other theme. Absent icons stay absent |
| BodyTheme.InitializeTheme | js/script.js:23-27 | start-up applies the saved theme and draws the icons for it without writing storage. The same icons stay present |
| BodyTheme.ToggleTheme | js/script.js:35-42 | 'dark' becomes 'light' and anything else becomes 'dark'. The attribute and storage get the same value, and the icons match it. The same icons stay present |
| BodyTheme.ToggleTwiceRestores | js/script.js:35-42 | two toggles from 'light' or 'dark' restore the theme and the icons, and store that theme |
| BodyTheme.UnknownStoredThemeIsKept | js/script.js:24-37 | a stored 'blue' is applied at start-up, and the first toggle gives 'dark' |
| RootTheme.ToggleIcon | script.js:19-21 | the button shows the moon exactly for 'light', otherwise the sun |
| RootTheme.Startup | script.js:7-9 | a missing or empty stored value gives 'light', and any other stored value is used. The button shows the moon for 'light' and the sun for any other result |
| RootTheme.Toggle | script.js:11-17 | 'light' becomes 'dark' and anything else becomes 'light'. The root and storage get the same value, and the button shows the moon for 'light' and the sun otherwise |
| RootTheme.ToggleTwiceRestores | script.js:11-17 | two toggles from 'light' or 'dark' restore the page and store that theme |
| RootTheme.TogglesAgreeOnlyOnLightAndDark | script.js:12-13 | both scripts read storage alike and swap 'light'/'dark' alike. On any other value, this toggle gives 'light' and the other gives 'dark' |
| CardTilt.OnMouseMove | script.js:55-67 | on a card of positive size, the transform has perspective 1000 and scale 1.05. Each angle is 8 degrees times the pointer's offset from the centre over the half-size, with the vertical axis inverted. An empty card keeps its transform |
| CardTilt.OnMouseLeave | script.js:69-71 | leaving always gives no rotation and scale 1 |
| CardTilt.TiltBoundedIffInside | script.js:56-64 | both angles lie in [-8, 8] exactly when the pointer is inside the card |
| CardTilt.CentreIsFlat | script.js:59-64 | both angles are 0 at the card's centre |
| CardTilt.LeaveForgetsPointer | script.js:69-71 | after leaving, the transform is the same whatever the last pointer position |

## Left out

- DOM queries, event registration, AOS start-up and the `IntersectionObserver` wiring are left out. Elements are given as records: sections with document coordinates, links, fields with their next sibling, and the two optional icons.
- Timers (`setTimeout`, `setInterval`, `requestAnimationFrame`) are left out. The typing pause and the success auto-hide are events. The simulated submission's 2-second delay is an opaque `Delivered`/`Failed` outcome.
- TypingAnimator.Step: a pause event when no pause is pending is a no-op. The source has no such event.
- The counter animation (`target/125` steps) and the skill-bar width restore are left out. Both are floating point and timer driven. The `data-animated` one-shot guard is not modelled either.
- The particle background is left out. It uses `Math.random`, floating-point positions and canvas drawing.
- Smooth scrolling, `Utils.isInViewport`, `Utils.scrollToElement`, `Utils.debounce` and `Utils.throttle` are left out. They need live layout geometry or timer concurrency.
- The mobile menu, lazy loading, performance and error logging, the service worker, the section-reveal observer and the hover colour swaps are left out. None of them make decisions.
- NavbarScroll.OnScroll: offsets are integers. Browsers may report fractional offsets, and the comparisons are the same for them.
- ActiveNav.CurrentSection: section tops and heights are integers taken as given. Reading them from the live layout is left out.
- CardTilt.OnMouseMove: uses real numbers, not IEEE doubles, so rounding is not modelled. A card of zero size is taken to keep its transform, because the division yields NaN or an infinity that the browser rejects.
- JsText.Utf16Length: a JavaScript string may hold a lone surrogate code unit, and a Dafny `char` cannot. Such strings are not modelled.
- JsText.Substring: indexes characters, not code units. TypingAnimator.TypeText likewise compares `charIndex` with the phrase's character count where js/script.js:80 uses the code-unit `length`. Both are only applied to the site's phrases, which are ASCII, where the two agree.
- ContactForm.Submit: the request settles in one step. A `blur` or `input` event during the `await` (js/script.js:253-258, 285) may re-mark a field before the outcome, so on failure the fields are marked valid only when no such event intervenes. `FinishSubmit` accepts any form, so it covers that case.
- `contactForm.reset()` also resets controls outside the `input, textarea` set. Only the validated fields are modelled.
- A missing `#theme-toggle` button (`toggleButton`, script.js:3) makes `script.js` throw at line 9, after line 8 has applied the theme. The tilt listeners (script.js:54-72) are then never installed. This is not modelled.
- Storage failures are not modelled. `localStorage.getItem` throws when storage is blocked. In `js/script.js` the call at line 24 runs inside the start-up handler, so every later initializer (lines 553-567) is skipped. In `script.js` the call at line 7 stops the rest of the script the same way.
- Missing elements in `js/script.js` throw, and this is not modelled. Without `#formMessage`, `showFormMessage` throws at line 354. On the success path its `catch` throws again, and `finally` still restores the button, but the fields are never reset. Without a submit button, line 279 throws. Without `#mainNav`, line 226 or 229 throws before line 239 stores the offset.

=== FILE: active_nav.dfy ===
/** The active-navigation scroll handler of js/script.js: find the section
    under the look-ahead point, then mark exactly the links pointing at it. */
module ActiveNav {

  /** How far below the top of the viewport the probe point lies. */
  const LookAhead := 100
  const ActiveClass := "active"

  /** A `section[id]`: its id and its extent in document coordinates. */
  datatype Section = Section(id: string, top: int, height: int)

  /** A `.nav-link[href^="#"]`: its `href` attribute and class list. */
  datatype Link = Link(href: string, classes: set<string>)

  /** The half-open extent `[top, top + height)` of a section contains `y`. */
  predicate Covers(s: Section, y: int) {
    s.top <= y < s.top + s.height
  }

  /** Section `i` is the last one, in document order, whose extent contains `y`. */
  predicate IsLastCovering(sections: seq<Section>, y: int, i: int) {
    && 0 <= i < |sections| && Covers(sections[i], y)
    && forall j :: i < j < |sections| ==> !Covers(sections[j], y)
  }

  /** The `forEach` over the sections: `current` ends as the id of the last
      section covering `pageYOffset + 100`, or '' when none does. */
  method CurrentSection(sections: seq<Section>, pageYOffset: int) returns (current: string)
    ensures (forall i :: 0 <= i < |sections| ==> !Covers(sections[i], pageYOffset + LookAhead))
            ==> current == ""
    ensures forall i :: IsLastCovering(sections, pageYOffset + LookAhead, i) ==> current == sections[i].id
  {
    current := "";
    var y := pageYOffset + LookAhead;
    ghost var found := -1;
    var n := 0;
    while n < |sections|
      invariant 0 <= n <= |sections|
      invariant -1 <= found < n
      invariant found == -1 ==> current == "" && forall j :: 0 <= j < n ==> !Covers(sections[j], y)
      invariant found >= 0 ==> current == sections[found].id && Covers(sections[found], y)
                               && forall j :: found < j < n ==> !Covers(sections[j], y)
    {
      if y >= sections[n].top && y < sections[n].top + sections[n].height {
        current := sections[n].id;
        found := n;
      }
      n := n + 1;
    }
    if found >= 0 {
      forall i | IsLastCovering(sections, y, i) ensures current == sections[i].id {
        assert i == found;
      }
    }
  }

  /** The `forEach` over the links: drop `active` everywhere, then add it to
      every link whose `href` is `'#' + current`. Nothing else changes. */
  function MarkLinks(links: seq<Link>, current: string): (r: seq<Link>)
    ensures |r| == |links|
    ensures forall i :: 0 <= i < |r| ==> r[i].href == links[i].href
    ensures forall i :: 0 <= i < |r| ==> (ActiveClass in r[i].classes <==> links[i].href == "#" + current)
    ensures forall i :: 0 <= i < |r| ==> r[i].classes - {ActiveClass} == links[i].classes - {ActiveClass}
  {
    if links == [] then []
    else
      var l := links[0];
      var cleared := l.classes - {ActiveClass};
      [l.(classes := if l.href == "#" + current then cleared + {ActiveClass} else cleared)]
        + MarkLinks(links[1..], current)
  }

  /** The whole handler for one scroll event. */
  method OnScroll(sections: seq<Section>, links: seq<Link>, pageYOffset: int)
    returns (current: string, marked: seq<Link>)
    ensures |marked| == |links|
    ensures forall i :: 0 <= i < |marked| ==> marked[i].href == links[i].href
    ensures forall i :: 0 <= i < |marked| ==> (ActiveClass in marked[i].classes <==> links[i].href == "#" + current)
    ensures forall i :: 0 <= i < |marked| ==>
              marked[i].classes - {ActiveClass} == links[i].classes - {ActiveClass}
    ensures forall i :: IsLastCovering(sections, pageYOffset + LookAhead, i) ==> current == sections[i].id
    ensures (forall i :: 0 <= i < |sections| ==> !Covers(sections[i], pageYOffset + LookAhead))
            ==> current == ""
    ensures (forall i :: 0 <= i < |sections| ==> !Covers(sections[i], pageYOffset + LookAhead))
            ==> forall i :: 0 <= i < |marked| ==> (ActiveClass in marked[i].classes <==> links[i].href == "#")
  {
    current := CurrentSection(sections, pageYOffset);
    marked := MarkLinks(links, current);
  }

  /** With non-overlapping sections at most one covers the probe point, so
      "last match wins" picks the only match. */
  lemma DisjointSectionsHaveOneCover(sections: seq<Section>, y: int, i: int)
    requires forall a, b :: 0 <= a < b < |sections| ==>
               sections[a].top + sections[a].height <= sections[b].top
    requires 0 <= i < |sections| && Covers(sections[i], y)
    ensures IsLastCovering(sections, y, i)
  {
    forall j | i < j < |sections| ensures !Covers(sections[j], y) {
      assert sections[i].top + sections[i].height <= sections[j].top;
    }
  }
}

=== FILE: body_theme.dfy ===
/** Theme management of js/script.js: the `data-theme` attribute of the body,
    the single `theme` storage slot, and the class of the two optional theme
    icons (mobile and desktop), both driven by one `toggleTheme`. */
module BodyTheme {
  import opened Wrappers

  const SunIcon := "fas fa-sun"
  const MoonIcon := "fas fa-moon"

  /** The body's `data-theme`, the stored value, and the class name of each
      icon element, `None` when the element is absent from the page. */
  datatype Page = Page(theme: string, stored: Option<string>,
                       mobileIcon: Option<string>, desktopIcon: Option<string>)

  /** `localStorage.getItem('theme') || 'light'`: a missing or empty stored
      value falls back to 'light'; any other stored string is used as is. */
  function SavedTheme(stored: Option<string>): (t: string)
    ensures t != ""
    ensures stored.Some? && stored.value != "" ==> t == stored.value
    ensures stored.None? || stored == Some("") ==> t == "light"
  {
    match stored
    case Some(v) => if v != "" then v else "light"
    case None => "light"
  }

  /** The icon class drawn for a theme: the sun for 'dark', the moon for any
      other value. */
  function IconFor(theme: string): string {
    if theme == "dark" then SunIcon else MoonIcon
  }

  /** `updateThemeIcons`: every icon present gets the same class, the sun
      for 'dark' and the moon for every other theme; absent icons stay absent. */
  function UpdateIcons(p: Page, theme: string): (r: Page)
    ensures r.theme == p.theme && r.stored == p.stored
    ensures r.mobileIcon.Some? == p.mobileIcon.Some? && r.desktopIcon.Some? == p.desktopIcon.Some?
    ensures r.mobileIcon.Some? ==> (r.mobileIcon.value == SunIcon <==> theme == "dark")
    ensures r.desktopIcon.Some? ==> (r.desktopIcon.value == SunIcon <==> theme == "dark")
    ensures r.mobileIcon.Some? && theme != "dark" ==> r.mobileIcon.value == MoonIcon
    ensures r.desktopIcon.Some? && theme != "dark" ==> r.desktopIcon.value == MoonIcon
    ensures r.mobileIcon.Some? && r.desktopIcon.Some? ==> r.mobileIcon == r.desktopIcon
  {
    var iconClass := IconFor(theme);
    p.(mobileIcon := if p.mobileIcon.Some? then Some(iconClass) else None,
       desktopIcon := if p.desktopIcon.Some? then Some(iconClass) else None)
  }

  /** Every icon present shows the class drawn for the applied theme. */
  predicate InSync(p: Page) {
    && (p.mobileIcon.Some? ==> p.mobileIcon.value == IconFor(p.theme))
    && (p.desktopIcon.Some? ==> p.desktopIcon.value == IconFor(p.theme))
  }

  /** `initializeTheme`: apply the saved theme and draw the icons for it.
      Storage is only read. */
  function InitializeTheme(p: Page): (r: Page)
    ensures r.theme == SavedTheme(p.stored) && r.stored == p.stored
    ensures r.mobileIcon.Some? == p.mobileIcon.Some? && r.desktopIcon.Some? == p.desktopIcon.Some?
    ensures InSync(r)
  {
    UpdateIcons(p.(theme := SavedTheme(p.stored)), SavedTheme(p.stored))
  }

  /** `toggleTheme`: 'dark' becomes 'light' and every other value becomes
      'dark'; the attribute and storage receive the same new value. */
  function ToggleTheme(p: Page): (r: Page)
    ensures p.theme == "dark" ==> r.theme == "light"
    ensures p.theme != "dark" ==> r.theme == "dark"
    ensures r.stored == Some(r.theme)
    ensures r.mobileIcon.Some? == p.mobileIcon.Some? && r.desktopIcon.Some? == p.desktopIcon.Some?
    ensures InSync(r)
  {
    var next := if p.theme == "dark" then "light" else "dark";
    UpdateIcons(p.(theme := next, stored := Some(next)), next)
  }

  /** Toggling twice from 'light' or 'dark' restores the theme, stores it, and
      redraws the icons exactly as a synchronised page had them. */
  lemma ToggleTwiceRestores(p: Page)
    requires p.theme == "light" || p.theme == "dark"
    ensures ToggleTheme(ToggleTheme(p)).theme == p.theme
    ensures ToggleTheme(ToggleTheme(p)).stored == Some(p.theme)
    ensures InSync(p) ==> ToggleTheme(ToggleTheme(p)) == p.(stored := Some(p.theme))
  {
  }

  /** A stored value that is neither 'light' nor 'dark' is applied verbatim at
      start-up; the first toggle turns it into 'dark'. */
  lemma UnknownStoredThemeIsKept(p: Page)
    requires p.stored == Some("blue")
    ensures InitializeTheme(p).theme == "blue"
    ensures ToggleTheme(InitializeTheme(p)).theme == "dark"
  {
  }
}

=== FILE: contact_form.dfy ===
/** The contact form of js/script.js: the per-field rule, the validity markers
    it leaves on a field, the banner, and the submit handler as a small outcome
    machine. The simulated network delay is an opaque outcome. */
module ContactForm {
  import opened Wrappers
  import opened JsText
  import opened EmailPattern

  const RequiredMessage := "This field is required."
  const EmailMessage := "Please enter a valid email address."
  const ShortTextMessage := "Please enter at least 2 characters."
  const LongTextMessage := "Please enter at least 10 characters."
  const FixErrorsMessage := "Please fix the errors above."
  const SuccessMessage := "Thank you for your message! I'll get back to you soon."
  const FailureMessage := "Sorry, there was an error sending your message. Please try again."
  const SendingLabel := "<i class=\"fas fa-spinner fa-spin me-2\"></i>Sending..."

  const ValidClass := "is-valid"
  const InvalidClass := "is-invalid"
  const FeedbackClass := "invalid-feedback"
  const Markers := {ValidClass, InvalidClass}

  /** The outcome of the rule on one value: an empty message when valid. */
  datatype Verdict = Verdict(valid: bool, message: string)

  /** The element right after a field in the document. */
  datatype Sibling = Sibling(classes: set<string>, text: string)

  /** An `input` or `textarea`: its `type` property, current and default value,
      class list, and following sibling if any. */
  datatype Field = Field(kind: string, value: string, defaultValue: string,
                         classes: set<string>, next: Option<Sibling>)

  /** A field after validation, and whether it passed. */
  datatype Validated = Validated(field: Field, valid: bool)

  /** The submit button: its inner HTML and whether it is disabled. */
  datatype Button = Button(html: string, disabled: bool)

  /** The message element: text, class name, `display` style, and how many
      auto-hide timers are still pending on it. */
  datatype Banner = Banner(text: string, className: string, display: string, pendingHides: nat)

  datatype Form = Form(fields: seq<Field>, button: Button, banner: Banner)

  /** How the stand-in for the network call settles. */
  datatype Delivery = Delivered | Failed

  /** The first half of submission: either rejected by validation, or the
      button switched to its busy state while the request is in flight. */
  datatype Begun = Blocked(form: Form) | Sending(form: Form, originalHtml: string)

  /** The rules of `validateField` on an already trimmed value, by the field's
      `type`: required for every type, then a type-specific rule for the three
      types the switch names and nothing more for any other. The two length
      rules count UTF-16 code units, as `value.length` does. */
  function Rule(kind: string, value: string): (v: Verdict)
    ensures v.valid <==> v.message == ""
    ensures value == [] ==> v == Verdict(false, RequiredMessage)
    ensures value != [] && kind == "email" ==>
              v == (if IsEmailShaped(value) then Verdict(true, "") else Verdict(false, EmailMessage))
    ensures value != [] && kind == "text" ==>
              v == (if Utf16Length(value) >= 2 then Verdict(true, "") else Verdict(false, ShortTextMessage))
    ensures value != [] && kind == "textarea" ==>
              v == (if Utf16Length(value) >= 10 then Verdict(true, "") else Verdict(false, LongTextMessage))
    ensures kind != "email" && kind != "text" && kind != "textarea" ==> (v.valid <==> value != [])
  {
    if value == [] then Verdict(false, RequiredMessage)
    else if kind == "email" then
      EmailRegexIffShaped(value);
      if MatchesEmailRegex(value) then Verdict(true, "") else Verdict(false, EmailMessage)
    else if kind == "text" then
      if Utf16Length(value) < 2 then Verdict(false, ShortTextMessage) else Verdict(true, "")
    else if kind == "textarea" then
      if Utf16Length(value) < 10 then Verdict(false, LongTextMessage) else Verdict(true, "")
    else Verdict(true, "")
  }

  /** The verdict of `validateField` for a raw field value: the rule applied
      to the value with surrounding whitespace trimmed. A value that is only
      whitespace is always "required". */
  function Check(kind: string, raw: string): (v: Verdict)
    ensures v.valid <==> v.message == ""
    ensures AllSpace(raw) ==> v == Verdict(false, RequiredMessage)
  {
    Rule(kind, Trim(raw))
  }

  /** The rule only sees the trimmed value: whitespace typed before or after
      a value never changes the verdict. */
  lemma CheckIgnoresSurroundingSpace(kind: string, pre: string, raw: string, post: string)
    requires AllSpace(pre) && AllSpace(post)
    ensures Check(kind, pre + raw + post) == Check(kind, raw)
  {
    TrimIgnoresPadding(pre, raw, post);
  }

  /** The boundary cases of the two length rules. */
  lemma LengthRuleBoundaries()
    ensures !Rule("text", "a").valid && Rule("text", "ab").valid
    ensures !Rule("textarea", "123456789").valid && Rule("textarea", "1234567890").valid
  {
  }

  /** The text rule counts code units, not characters: a single emoji is two
      code units long and passes it. */
  lemma AstralCharPassesTextRule()
    ensures |"\U{1F600}"| == 1 && Rule("text", "\U{1F600}").valid
  {
    AstralCharIsTwoUnits('\U{1F600}');
  }

  /** The email rule on a valid address, a dotless domain and a blank value. */
  lemma EmailRuleExamples()
    ensures Rule("email", "") == Verdict(false, RequiredMessage)
    ensures Rule("email", "a@b.c").valid && !Rule("email", "foo@bar").valid
  {
    ShortestAddressAccepted();
    DotlessDomainRefused();
  }

  /** The second half of `validateField` for a computed verdict: clears both
      markers, adds exactly one, and writes the message into the sibling only
      when the value is invalid and the sibling is the feedback element. */
  function MarkField(f: Field, v: Verdict): (r: Validated)
    ensures r.valid == v.valid
    ensures (ValidClass in r.field.classes) == v.valid
    ensures (InvalidClass in r.field.classes) == !v.valid
    ensures r.field.classes - Markers == f.classes - Markers
    ensures r.field.kind == f.kind && r.field.value == f.value
            && r.field.defaultValue == f.defaultValue
    ensures v.valid || f.next.None? || FeedbackClass !in f.next.value.classes ==>
              r.field.next == f.next
    ensures !v.valid && f.next.Some? && FeedbackClass in f.next.value.classes ==>
              r.field.next == Some(Sibling(f.next.value.classes, v.message))
  {
    var cleared := f.classes - Markers;
    if v.valid then
      Validated(f.(classes := cleared + {ValidClass}), true)
    else
      var next :=
        match f.next
        case Some(sib) => if FeedbackClass in sib.classes then Some(sib.(text := v.message)) else f.next
        case None => None;
      Validated(f.(classes := cleared + {InvalidClass}, next := next), false)
  }

  /** `validateField`: the rule applied to the field's own type and value, and
      the field marked with the outcome. */
  function ValidateField(f: Field): (r: Validated)
    ensures r.valid == Check(f.kind, f.value).valid
    ensures (ValidClass in r.field.classes) == r.valid
    ensures (InvalidClass in r.field.classes) == !r.valid
    ensures r.field.classes - Markers == f.classes - Markers
    ensures r.field.kind == f.kind && r.field.value == f.value
            && r.field.defaultValue == f.defaultValue
    ensures r.valid || f.next.None? || FeedbackClass !in f.next.value.classes ==>
              r.field.next == f.next
    ensures !r.valid && f.next.Some? && FeedbackClass in f.next.value.classes ==>
              r.field.next == Some(Sibling(f.next.value.classes, Check(f.kind, f.value).message))
  {
    MarkField(f, Check(f.kind, f.value))
  }

  /** The `blur` listener: always re-validates. */
  function OnBlur(f: Field): (r: Field)
    ensures (ValidClass in r.classes) != (InvalidClass in r.classes)
    ensures (ValidClass in r.classes) == Check(f.kind, f.value).valid
    ensures r.kind == f.kind && r.value == f.value && r.defaultValue == f.defaultValue
    ensures r.classes - Markers == f.classes - Markers
    ensures Check(f.kind, f.value).valid || f.next.None? || FeedbackClass !in f.next.value.classes ==>
              r.next == f.next
    ensures !Check(f.kind, f.value).valid && f.next.Some? && FeedbackClass in f.next.value.classes ==>
              r.next == Some(Sibling(f.next.value.classes, Check(f.kind, f.value).message))
  {
    ValidateField(f).field
  }

  /** The `input` listener: records the new value, and re-validates only a
      field that is currently marked invalid. */
  function OnInput(f: Field, newValue: string): (r: Field)
    ensures r.value == newValue
    ensures InvalidClass !in f.classes ==> r == f.(value := newValue)
    ensures InvalidClass in f.classes ==>
              && (ValidClass in r.classes) == Check(f.kind, newValue).valid
              && (InvalidClass in r.classes) == !Check(f.kind, newValue).valid
              && r.kind == f.kind && r.defaultValue == f.defaultValue
              && r.classes - Markers == f.classes - Markers
              && (Check(f.kind, newValue).valid || f.next.None? || FeedbackClass !in f.next.value.classes ==>
                    r.next == f.next)
              && (!Check(f.kind, newValue).valid && f.next.Some? && FeedbackClass in f.next.value.classes ==>
                    r.next == Some(Sibling(f.next.value.classes, Check(f.kind, newValue).message)))
  {
    var typed := f.(value := newValue);
    if InvalidClass in f.classes then ValidateField(typed).field else typed
  }

  /** The validating loop of the submit handler, for a given per-field check:
      every field is validated, with no short-circuit, and the flag records
      whether all of them passed. */
  method ValidateAll(fields: seq<Field>, validate: Field -> Validated)
    returns (checked: seq<Field>, allValid: bool)
    ensures |checked| == |fields|
    ensures forall i :: 0 <= i < |fields| ==> checked[i] == validate(fields[i]).field
    ensures allValid <==> forall i :: 0 <= i < |fields| ==> validate(fields[i]).valid
  {
    checked := [];
    allValid := true;
    var n := 0;
    while n < |fields|
      invariant 0 <= n <= |fields|
      invariant |checked| == n
      invariant forall i :: 0 <= i < n ==> checked[i] == validate(fields[i]).field
      invariant allValid <==> forall i :: 0 <= i < n ==> validate(fields[i]).valid
    {
      var r := validate(fields[n]);
      if !r.valid {
        allValid := false;
      }
      checked := checked + [r.field];
      n := n + 1;
    }
  }

  /** Every field passes its rule. */
  predicate AllPass(fields: seq<Field>) {
    forall i :: 0 <= i < |fields| ==> ValidateField(fields[i]).valid
  }

  /** `showFormMessage`: shows `message` with class `form-message <kind>`; a
      success message also schedules one auto-hide. */
  function ShowFormMessage(b: Banner, message: string, kind: string): (r: Banner)
    ensures r.text == message && r.display == "block"
    ensures r.className == "form-message " + kind
    ensures r.pendingHides == b.pendingHides + (if kind == "success" then 1 else 0)
  {
    Banner(message, "form-message " + kind, "block",
           b.pendingHides + (if kind == "success" then 1 else 0))
  }

  /** One pending auto-hide timer fires: the banner is hidden, whatever it
      shows by then. */
  function HideTimerFires(b: Banner): (r: Banner)
    requires b.pendingHides > 0
    ensures r.display == "none" && r.pendingHides == b.pendingHides - 1
    ensures r.text == b.text && r.className == b.className
  {
    b.(display := "none", pendingHides := b.pendingHides - 1)
  }

  /** A success banner's timer is not cancelled by a later message: an error
      shown within the five seconds is hidden by it. */
  lemma StaleHideTimerHidesLaterError(b: Banner)
    ensures var shown := ShowFormMessage(ShowFormMessage(b, SuccessMessage, "success"),
                                         FixErrorsMessage, "error");
            && shown.pendingHides > 0
            && HideTimerFires(shown).text == FixErrorsMessage
            && HideTimerFires(shown).display == "none"
  {
    var s := ShowFormMessage(b, SuccessMessage, "success");
    assert s.pendingHides == b.pendingHides + 1;
  }

  /** `contactForm.reset()` followed by the removal of both markers. */
  function ResetField(f: Field): (r: Field)
    ensures r.value == f.defaultValue
    ensures r.classes == f.classes - Markers
    ensures r.kind == f.kind && r.next == f.next
  {
    f.(value := f.defaultValue, classes := f.classes - Markers)
  }

  /** The handler up to the `await`: validate every field; on any failure show
      the non-hiding error and stop without touching the button; otherwise
      remember the label and switch the button to its disabled busy state. */
  method BeginSubmit(form: Form) returns (step: Begun)
    ensures |step.form.fields| == |form.fields|
    ensures forall i :: 0 <= i < |form.fields| ==>
              step.form.fields[i] == ValidateField(form.fields[i]).field
    ensures step.Blocked? <==> !AllPass(form.fields)
    ensures step.Blocked? ==>
              && step.form.button == form.button
              && step.form.banner == ShowFormMessage(form.banner, FixErrorsMessage, "error")
    ensures step.Sending? ==>
              && step.originalHtml == form.button.html
              && step.form.button == Button(SendingLabel, true)
              && step.form.banner == form.banner
  {
    var checked, ok := ValidateAll(form.fields, ValidateField);
    if !ok {
      step := Blocked(form.(fields := checked,
                            banner := ShowFormMessage(form.banner, FixErrorsMessage, "error")));
    } else {
      step := Sending(form.(fields := checked, button := Button(SendingLabel, true)),
                      form.button.html);
    }
  }

  /** The handler after the `await`: on delivery show the auto-hiding success
      message and reset every field and its markers; on failure show the error;
      in both cases the `finally` block restores the label and enables the button. */
  function FinishSubmit(form: Form, originalHtml: string, outcome: Delivery): (r: Form)
    ensures r.button == Button(originalHtml, false)
    ensures |r.fields| == |form.fields|
    ensures outcome == Delivered ==>
              && r.banner == ShowFormMessage(form.banner, SuccessMessage, "success")
              && r.banner.pendingHides == form.banner.pendingHides + 1
              && forall i :: 0 <= i < |r.fields| ==>
                   && r.fields[i].value == form.fields[i].defaultValue
                   && ValidClass !in r.fields[i].classes && InvalidClass !in r.fields[i].classes
                   && r.fields[i].kind == form.fields[i].kind
                   && r.fields[i].defaultValue == form.fields[i].defaultValue
                   && r.fields[i].classes == form.fields[i].classes - Markers
                   && r.fields[i].next == form.fields[i].next
    ensures outcome == Failed ==>
              && r.fields == form.fields
              && r.banner == ShowFormMessage(form.banner, FailureMessage, "error")
  {
    var restored := Button(originalHtml, false);
    match outcome
    case Delivered =>
      Form(seq(|form.fields|, i requires 0 <= i < |form.fields| => ResetField(form.fields[i])),
           restored, ShowFormMessage(form.banner, SuccessMessage, "success"))
    case Failed =>
      form.(button := restored, banner := ShowFormMessage(form.banner, FailureMessage, "error"))
  }

  /** The whole submit handler for one settled outcome. A blocked submission
      never disables the button; every submission that got past validation
      ends with the original label and an enabled button. */
  method Submit(form: Form, outcome: Delivery) returns (r: Form)
    ensures |r.fields| == |form.fields|
    ensures AllPass(form.fields) ==> r.button == form.button.(disabled := false)
    ensures !AllPass(form.fields) ==>
              && r.button == form.button
              && r.banner == ShowFormMessage(form.banner, FixErrorsMessage, "error")
              && r.banner.pendingHides == form.banner.pendingHides
              && forall i :: 0 <= i < |form.fields| ==> r.fields[i] == ValidateField(form.fields[i]).field
    ensures AllPass(form.fields) && outcome == Delivered ==>
              && r.banner == ShowFormMessage(form.banner, SuccessMessage, "success")
              && r.banner.pendingHides > 0
              && forall i :: 0 <= i < |r.fields| ==>
                   && r.fields[i].value == form.fields[i].defaultValue
                   && r.fields[i].classes * Markers == {}
                   && r.fields[i].kind == form.fields[i].kind
                   && r.fields[i].defaultValue == form.fields[i].defaultValue
                   && r.fields[i].classes == form.fields[i].classes - Markers
                   && r.fields[i].next == form.fields[i].next
    ensures AllPass(form.fields) && outcome == Failed ==>
              && r.banner == ShowFormMessage(form.banner, FailureMessage, "error")
              && forall i :: 0 <= i < |r.fields| ==> ValidClass in r.fields[i].classes
  {
    var step := BeginSubmit(form);
    match step
    case Blocked(f) =>
      r := f;
    case Sending(f, saved) =>
      r := FinishSubmit(f, saved, outcome);
  }
}

=== FILE: email.dfy ===
/** The email rule of the contact form: the regular expression
    `^[^\s@]+@[^\s@]+\.[^\s@]+$`, read literally, and the plain description of
    the addresses it accepts. */
module EmailPattern {
  import opened JsText

  /** One character of the class `[^\s@]`. */
  predicate IsAddressChar(c: char) {
    !IsSpace(c) && c != '@'
  }

  predicate AllAddressChars(s: string) {
    forall k :: 0 <= k < |s| ==> IsAddressChar(s[k])
  }

  /** The regular expression as written: `s` splits into three non-empty runs
      of `[^\s@]`, the first two joined by '@' and the last two by '.'. The
      match backtracks, so any choice of the '.' will do. */
  predicate MatchesEmailRegex(s: string) {
    exists at, dot ::
      && 0 < at < |s| && 0 < dot < |s| && at + 1 < dot && dot + 1 < |s|
      && s[at] == '@' && s[dot] == '.'
      && AllAddressChars(s[..at]) && AllAddressChars(s[at + 1..dot])
      && AllAddressChars(s[dot + 1..])
  }

  /** The domain part has a '.' that is neither its first nor its last character. */
  predicate HasInnerDot(d: string) {
    exists k :: 0 < k < |d| - 1 && d[k] == '.'
  }

  /** What the pattern accepts, in words: no whitespace, exactly one '@' with
      something before it, and a '.' strictly inside what follows it. */
  predicate IsEmailShaped(s: string) {
    && NoSpace(s)
    && multiset(s)['@'] == 1
    && exists at :: 0 < at < |s| && s[at] == '@' && HasInnerDot(s[at + 1..])
  }

  /** A string with a single '@' has it at exactly one position. */
  lemma SingleAtElsewhereAbsent(s: string, at: int, j: int)
    requires multiset(s)['@'] == 1
    requires 0 <= at < |s| && s[at] == '@'
    requires 0 <= j < |s| && j != at
    ensures s[j] != '@'
  {
    var lo, hi := if j < at then j else at, if j < at then at else j;
    assert s == s[..hi] + s[hi..];
    assert s[lo] == s[..hi][lo];
    assert s[hi] == s[hi..][0];
    assert multiset(s) == multiset(s[..hi]) + multiset(s[hi..]);
  }

  /** A run of `[^\s@]` holds no '@'. */
  lemma AddressRunHasNoAt(s: string)
    requires AllAddressChars(s)
    ensures multiset(s)['@'] == 0
  {
    assert '@' !in s;
  }

  /** The three runs of a match, with the '@' and the '.' between them,
      make up the whole string. */
  lemma RegexSplitFacts(s: string, at: int, dot: int)
    requires 0 < at && at + 1 < dot && dot + 1 < |s|
    requires s[at] == '@' && s[dot] == '.'
    requires AllAddressChars(s[..at]) && AllAddressChars(s[at + 1..dot])
    requires AllAddressChars(s[dot + 1..])
    ensures NoSpace(s)
    ensures multiset(s)['@'] == 1
  {
    var a, b, c := s[..at], s[at + 1..dot], s[dot + 1..];
    assert s == a + [s[at]] + b + [s[dot]] + c;
    forall k | 0 <= k < |s| ensures !IsSpace(s[k]) {
      if k < at { assert s[k] == a[k]; }
      else if at < k < dot { assert s[k] == b[k - at - 1]; }
      else if dot < k { assert s[k] == c[k - dot - 1]; }
    }
    AddressRunHasNoAt(a);
    AddressRunHasNoAt(b);
    AddressRunHasNoAt(c);
    assert multiset(s) == multiset(a) + multiset([s[at]]) + multiset(b)
                          + multiset([s[dot]]) + multiset(c);
  }

  /** Every string the pattern accepts has the shape described in words. */
  lemma EmailRegexIsShaped(s: string)
    requires MatchesEmailRegex(s)
    ensures IsEmailShaped(s)
  {
    var at, dot :|
      && 0 < at < |s| && 0 < dot < |s| && at + 1 < dot && dot + 1 < |s|
      && s[at] == '@' && s[dot] == '.'
      && AllAddressChars(s[..at]) && AllAddressChars(s[at + 1..dot])
      && AllAddressChars(s[dot + 1..]);
    RegexSplitFacts(s, at, dot);
    var d := s[at + 1..];
    assert d[dot - at - 1] == '.';
    assert HasInnerDot(d);
  }

  /** Every string of the described shape is accepted by the pattern. */
  lemma ShapedMatchesEmailRegex(s: string)
    requires IsEmailShaped(s)
    ensures MatchesEmailRegex(s)
  {
    var at :| 0 < at < |s| && s[at] == '@' && HasInnerDot(s[at + 1..]);
    var d := s[at + 1..];
    var k :| 0 < k < |d| - 1 && d[k] == '.';
    var dot := at + 1 + k;
    assert s[dot] == '.';
    forall j | 0 <= j < |s| && j != at ensures IsAddressChar(s[j]) {
      SingleAtElsewhereAbsent(s, at, j);
    }
    assert AllAddressChars(s[..at]);
    assert AllAddressChars(s[at + 1..dot]);
    assert AllAddressChars(s[dot + 1..]);
  }

  /** The literal pattern and the description in words accept the same strings. */
  lemma EmailRegexIffShaped(s: string)
    ensures MatchesEmailRegex(s) <==> IsEmailShaped(s)
  {
    if MatchesEmailRegex(s) { EmailRegexIsShaped(s); }
    if IsEmailShaped(s) { ShapedMatchesEmailRegex(s); }
  }

  /** An address without a '.' after the '@' is refused. */
  lemma DotlessDomainRefused()
    ensures !MatchesEmailRegex("foo@bar")
  {
    var bad := "foo@bar";
    forall at, dot | 0 < at < |bad| && 0 < dot < |bad| && at + 1 < dot && dot + 1 < |bad|
                     && bad[at] == '@'
      ensures bad[dot] != '.'
    {
      assert at == 3;
      assert dot == 5;
    }
  }

  /** The shortest accepted shape: one character in each run. */
  lemma ShortestAddressAccepted()
    ensures MatchesEmailRegex("a@b.c")
  {
    var s := "a@b.c";
    assert s[1] == '@' && s[3] == '.';
    assert s[..1] == "a" && s[2..3] == "b" && s[4..] == "c";
    assert !IsSpace('a') && !IsSpace('b') && !IsSpace('c');
    assert AllAddressChars(s[..1]) && AllAddressChars(s[2..3]) && AllAddressChars(s[4..]);
  }
}

=== FILE: jstext.dfy ===
/** The few ECMAScript string primitives the scripts rely on: the whitespace
    class shared by `String.prototype.trim` and the regular-expression class
    `\s`, `trim` itself, the clamping `substring`, and `length`. A Dafny
    `char` is a Unicode scalar value; the source's strings are sequences of
    UTF-16 code units, so `length` is modelled separately by `Utf16Length`.
    The whitespace class lies in the Basic Multilingual Plane, so trimming is
    the same on either view. */
module JsText {

  /** The WhiteSpace and LineTerminator code points of ECMA-262: exactly what
      `trim` strips and what `\s` matches. */
  const Whitespace: set<char> := {
    '\t', '\U{B}', '\U{C}', ' ', '\U{A0}', '\U{FEFF}', '\n', '\r', '\U{2028}', '\U{2029}',
    '\U{1680}', '\U{2000}', '\U{2001}', '\U{2002}', '\U{2003}', '\U{2004}', '\U{2005}',
    '\U{2006}', '\U{2007}', '\U{2008}', '\U{2009}', '\U{200A}', '\U{202F}', '\U{205F}',
    '\U{3000}'
  }

  predicate IsSpace(c: char) {
    c in Whitespace
  }

  predicate AllSpace(s: string) {
    forall k :: 0 <= k < |s| ==> IsSpace(s[k])
  }

  predicate NoSpace(s: string) {
    forall k :: 0 <= k < |s| ==> !IsSpace(s[k])
  }

  /** The end of the run of whitespace that starts at `i`. */
  function SpaceRunFrom(s: string, i: nat): (j: nat)
    requires i <= |s|
    ensures i <= j <= |s|
    ensures forall k :: i <= k < j ==> IsSpace(s[k])
    ensures j < |s| ==> !IsSpace(s[j])
    decreases |s| - i
  {
    if i < |s| && IsSpace(s[i]) then SpaceRunFrom(s, i + 1) else i
  }

  /** The start of the run of whitespace that ends at `j`, not going below `lo`. */
  function SpaceRunBefore(s: string, lo: nat, j: nat): (i: nat)
    requires lo <= j <= |s|
    ensures lo <= i <= j
    ensures forall k :: i <= k < j ==> IsSpace(s[k])
    ensures i > lo ==> !IsSpace(s[i - 1])
    decreases j
  {
    if j > lo && IsSpace(s[j - 1]) then SpaceRunBefore(s, lo, j - 1) else j
  }

  /** How many leading whitespace characters `trim` removes. */
  function LeadingSpace(s: string): (n: nat)
    ensures n <= |s|
    ensures forall k :: 0 <= k < n ==> IsSpace(s[k])
    ensures n < |s| ==> !IsSpace(s[n])
  {
    SpaceRunFrom(s, 0)
  }

  /** `String.prototype.trim`: the infix of `s` after its leading whitespace
      and before its trailing whitespace. It starts and ends with a
      non-whitespace character, and is empty exactly when `s` is all
      whitespace. */
  function Trim(s: string): (r: string)
    ensures LeadingSpace(s) + |r| <= |s|
    ensures r == s[LeadingSpace(s)..LeadingSpace(s) + |r|]
    ensures forall k :: LeadingSpace(s) + |r| <= k < |s| ==> IsSpace(s[k])
    ensures r == [] || (!IsSpace(r[0]) && !IsSpace(r[|r| - 1]))
    ensures r == [] <==> AllSpace(s)
  {
    var a := LeadingSpace(s);
    var b := SpaceRunBefore(s, a, |s|);
    assert b > a ==> s[a..b][0] == s[a] && s[a..b][b - a - 1] == s[b - 1];
    assert b == a ==> forall k :: 0 <= k < |s| ==> IsSpace(s[k]);
    s[a..b]
  }

  /** Trimming an already trimmed string changes nothing. */
  lemma TrimIdempotent(s: string)
    ensures Trim(Trim(s)) == Trim(s)
  {
    var t := Trim(s);
    assert LeadingSpace(t) == 0;
    assert SpaceRunBefore(t, 0, |t|) == |t|;
    assert t[0..|t|] == t;
  }

  /** `LeadingSpace` is the only index with whitespace before it and a
      non-whitespace character (or the end) at it. */
  lemma LeadingSpaceUnique(s: string, n: nat)
    requires n <= |s|
    requires forall k :: 0 <= k < n ==> IsSpace(s[k])
    requires n < |s| ==> !IsSpace(s[n])
    ensures LeadingSpace(s) == n
  {
  }

  /** An infix that starts and ends with non-whitespace and has only
      whitespace around it is what `trim` returns. */
  lemma TrimUnique(s: string, i: nat, e: nat)
    requires i < e <= |s|
    requires forall k :: 0 <= k < i ==> IsSpace(s[k])
    requires forall k :: e <= k < |s| ==> IsSpace(s[k])
    requires !IsSpace(s[i]) && !IsSpace(s[e - 1])
    ensures Trim(s) == s[i..e]
  {
    LeadingSpaceUnique(s, i);
  }

  /** A run of whitespace in `s` is one in any string holding `s` at `off`. */
  lemma SpaceRunShifts(t: string, s: string, off: nat, lo: nat, hi: nat)
    requires off + |s| <= |t| && t[off..off + |s|] == s
    requires lo <= hi <= |s|
    requires forall k :: lo <= k < hi ==> IsSpace(s[k])
    ensures forall k :: off + lo <= k < off + hi ==> IsSpace(t[k])
  {
    forall k | off + lo <= k < off + hi ensures IsSpace(t[k]) {
      assert t[k] == t[off..off + |s|][k - off];
    }
  }

  /** A string that holds `s` at offset `off` with only whitespace around it
      trims to what `s` trims to. */
  lemma TrimOfSurrounded(t: string, s: string, off: nat)
    requires off + |s| <= |t| && t[off..off + |s|] == s
    requires forall k :: 0 <= k < off ==> IsSpace(t[k])
    requires forall k :: off + |s| <= k < |t| ==> IsSpace(t[k])
    ensures Trim(t) == Trim(s)
  {
    var r := Trim(s);
    if r == [] {
      SpaceRunShifts(t, s, off, 0, |s|);
    } else {
      TrimOfSurroundedNonBlank(t, s, off);
    }
  }

  /** The case of `TrimOfSurrounded` where `s` holds a non-whitespace character. */
  lemma TrimOfSurroundedNonBlank(t: string, s: string, off: nat)
    requires off + |s| <= |t| && t[off..off + |s|] == s
    requires forall k :: 0 <= k < off ==> IsSpace(t[k])
    requires forall k :: off + |s| <= k < |t| ==> IsSpace(t[k])
    requires Trim(s) != []
    ensures Trim(t) == Trim(s)
  {
    var r := Trim(s);
    var a := LeadingSpace(s);
    var e := a + |r|;
    assert s[a] == r[0] && s[e - 1] == r[|r| - 1];
    InfixShifts(t, s, off, a, e);
    SpaceRunShifts(t, s, off, 0, a);
    SpaceRunShifts(t, s, off, e, |s|);
    TrimUnique(t, off + a, off + e);
  }

  /** An infix of `s` is the matching infix of a string holding `s` at `off`. */
  lemma InfixShifts(t: string, s: string, off: nat, a: nat, e: nat)
    requires off + |s| <= |t| && t[off..off + |s|] == s
    requires a < e <= |s|
    ensures t[off + a..off + e] == s[a..e]
    ensures t[off + a] == s[a] && t[off + e - 1] == s[e - 1]
  {
    forall k | 0 <= k < e - a ensures t[off + a..off + e][k] == s[a..e][k] {
      assert t[off + a + k] == t[off..off + |s|][a + k];
    }
    assert t[off + a] == t[off..off + |s|][a];
    assert t[off + e - 1] == t[off..off + |s|][e - 1];
  }

  /** Whitespace added on either side of a value disappears again under `trim`. */
  lemma TrimIgnoresPadding(pre: string, s: string, post: string)
    requires AllSpace(pre) && AllSpace(post)
    ensures Trim(pre + s + post) == Trim(s)
  {
    var t := pre + s + post;
    assert t[|pre|..|pre| + |s|] == s;
    forall k | 0 <= k < |pre| ensures IsSpace(t[k]) {
      assert t[k] == pre[k];
    }
    forall k | |pre| + |s| <= k < |t| ensures IsSpace(t[k]) {
      assert t[k] == post[k - |pre| - |s|];
    }
    TrimOfSurrounded(t, s, |pre|);
  }

  /** An index clamped into `[0, len]`, as `substring` does with its arguments. */
  function Clamp(n: int, len: nat): (r: nat)
    ensures r <= len
    ensures n <= 0 ==> r == 0
    ensures n >= len ==> r == len
    ensures 0 <= n <= len ==> r == n
  {
    if n < 0 then 0 else if n > len then len else n
  }

  /** `String.prototype.substring(start, end)`: both bounds are clamped into
      `[0, |s|]` and swapped when out of order. */
  function Substring(s: string, start: int, end: int): (r: string)
  {
    var a := Clamp(start, |s|);
    var b := Clamp(end, |s|);
    if a <= b then s[a..b] else s[b..a]
  }

  /** `s.substring(0, n)` is the prefix of `s` of length `n` clamped into
      `[0, |s|]`, whatever integer `n` is. */
  lemma SubstringFromZeroIsPrefix(s: string, n: int)
    ensures Substring(s, 0, n) <= s
    ensures |Substring(s, 0, n)| == Clamp(n, |s|)
    ensures n <= 0 ==> Substring(s, 0, n) == []
    ensures n >= |s| ==> Substring(s, 0, n) == s
  {
  }

  /** How many UTF-16 code units encode `c`: two (a surrogate pair) above
      U+FFFF, one otherwise. */
  function CodeUnits(c: char): nat {
    if c as int > 0xFFFF then 2 else 1
  }

  /** `String.prototype.length`: the number of UTF-16 code units. It is at
      least the number of characters and at most twice it, and equal to it
      exactly when every character lies in the Basic Multilingual Plane. */
  function Utf16Length(s: string): (n: nat)
    ensures |s| <= n <= 2 * |s|
    ensures n == |s| <==> forall k :: 0 <= k < |s| ==> s[k] as int <= 0xFFFF
    decreases |s|
  {
    if s == [] then 0
    else
      var n := CodeUnits(s[0]) + Utf16Length(s[1..]);
      assert forall k :: 1 <= k < |s| ==> s[1..][k - 1] == s[k];
      n
  }

  /** A single character outside the Basic Multilingual Plane has `length` 2. */
  lemma AstralCharIsTwoUnits(c: char)
    requires c as int > 0xFFFF
    ensures Utf16Length([c]) == 2
  {
    assert [c][1..] == [];
  }
}

=== FILE: navbar.dfy ===
/** The navbar scroll effect of js/script.js: the only state is the last
    stored scroll offset; each scroll event decides whether the bar is hidden
    and whether it carries the `scrolled` class. */
module NavbarScroll {

  const HideThreshold := 100
  const ScrolledThreshold := 50
  const HiddenTransform := "translateY(-100%)"
  const ShownTransform := "translateY(0)"

  /** The navbar's inline transform and class list. */
  datatype Navbar = Navbar(transform: string, classes: set<string>)

  /** The listener's closure (`lastScrollTop`) and the element it styles. */
  datatype Controller = Controller(lastScrollTop: int, bar: Navbar)

  /** The two offsets a scroll event reads: `window.pageYOffset` and
      `document.documentElement.scrollTop`. */
  datatype ScrollEvent = ScrollEvent(pageYOffset: int, documentScrollTop: int)

  /** `window.pageYOffset || document.documentElement.scrollTop`: 0 is falsy,
      so the second offset is read exactly when the first is 0. */
  function ScrollTop(e: ScrollEvent): int {
    if e.pageYOffset != 0 then e.pageYOffset else e.documentScrollTop
  }

  /** One scroll event, at the offset `s` the fallback yields. */
  function OnScroll(c: Controller, e: ScrollEvent): (r: Controller)
    ensures var s := ScrollTop(e);
            && (r.bar.transform == HiddenTransform <==> s > c.lastScrollTop && s > HideThreshold)
            && (r.bar.transform == ShownTransform <==> !(s > c.lastScrollTop && s > HideThreshold))
            && ("scrolled" in r.bar.classes <==> s > ScrolledThreshold)
            && r.bar.classes - {"scrolled"} == c.bar.classes - {"scrolled"}
            && r.lastScrollTop >= 0
            && (s > 0 ==> r.lastScrollTop == s)
            && (s <= 0 ==> r.lastScrollTop == 0)
  {
    var top := ScrollTop(e);
    var transform := if top > c.lastScrollTop && top > HideThreshold then HiddenTransform else ShownTransform;
    var classes := if top > ScrolledThreshold then c.bar.classes + {"scrolled"} else c.bar.classes - {"scrolled"};
    Controller(if top <= 0 then 0 else top, Navbar(transform, classes))
  }

  /** The fallback at work: while `pageYOffset` reads 0 the document's offset
      alone decides hiding and the stored offset; once `pageYOffset` is
      non-zero the document's offset is never looked at. */
  lemma FallbackOffsetDecides(c: Controller, p: int, d: int, d': int)
    ensures (OnScroll(c, ScrollEvent(0, d)).bar.transform == HiddenTransform)
            == (d > c.lastScrollTop && d > HideThreshold)
    ensures OnScroll(c, ScrollEvent(0, d)).lastScrollTop == (if d > 0 then d else 0)
    ensures p != 0 ==> OnScroll(c, ScrollEvent(p, d)) == OnScroll(c, ScrollEvent(p, d'))
  {
  }

  /** A hidden bar always has the `scrolled` class; a scroll that does not go
      further down always shows the bar. */
  lemma HiddenImpliesScrolled(c: Controller, e: ScrollEvent)
    ensures OnScroll(c, e).bar.transform == HiddenTransform ==> "scrolled" in OnScroll(c, e).bar.classes
    ensures ScrollTop(e) <= c.lastScrollTop ==> OnScroll(c, e).bar.transform == ShownTransform
  {
  }

  /** A sequence of scroll events, in order. */
  function Scrolls(c: Controller, events: seq<ScrollEvent>): (r: Controller)
    decreases |events|
  {
    if events == [] then c else Scrolls(OnScroll(c, events[0]), events[1..])
  }

  /** After any non-empty run of scroll events the stored offset is the last
      offset clamped to zero; it is never negative once one event has been
      handled, or if it was not negative to begin with. */
  lemma {:induction false} StoredOffsetIsLastClamped(c: Controller, events: seq<ScrollEvent>)
    ensures c.lastScrollTop >= 0 || events != [] ==> Scrolls(c, events).lastScrollTop >= 0
    ensures events != [] ==>
              var s := ScrollTop(events[|events| - 1]);
              Scrolls(c, events).lastScrollTop == if s > 0 then s else 0
    decreases |events|
  {
    if events != [] {
      StoredOffsetIsLastClamped(OnScroll(c, events[0]), events[1..]);
      if |events| > 1 {
        assert events[1..][|events[1..]| - 1] == events[|events| - 1];
      }
    }
  }

  /** A run followed by one more event is that event handled after the run. */
  lemma {:induction false} ScrollsThenOne(c: Controller, events: seq<ScrollEvent>, e: ScrollEvent)
    ensures Scrolls(c, events + [e]) == OnScroll(Scrolls(c, events), e)
    decreases |events|
  {
    if events == [] {
      assert [] + [e] == [e];
      assert [e][1..] == [];
    } else {
      assert (events + [e])[1..] == events[1..] + [e];
      ScrollsThenOne(OnScroll(c, events[0]), events[1..], e);
    }
  }

  /** After a run of at least two scroll events, whether the bar is hidden
      depends only on the last two offsets: the last must exceed both the
      threshold and the second-last clamped at zero. */
  lemma HidingFollowsLastTwoOffsets(c: Controller, events: seq<ScrollEvent>)
    requires |events| >= 2
    ensures var last := ScrollTop(events[|events| - 1]);
            var prev := ScrollTop(events[|events| - 2]);
            (Scrolls(c, events).bar.transform == HiddenTransform)
            == (last > (if prev > 0 then prev else 0) && last > HideThreshold)
  {
    var front := events[..|events| - 1];
    assert events == front + [events[|events| - 1]];
    assert front[|front| - 1] == events[|events| - 2];
    ScrollsThenOne(c, front, events[|events| - 1]);
    StoredOffsetIsLastClamped(c, front);
  }

  /** Scrolling down past the threshold hides the bar; scrolling back up to
      any offset shows it again. */
  lemma DownHidesUpShows(c: Controller, down: ScrollEvent, up: ScrollEvent)
    requires ScrollTop(down) > c.lastScrollTop && ScrollTop(down) > HideThreshold
    requires ScrollTop(up) < ScrollTop(down)
    ensures OnScroll(c, down).bar.transform == HiddenTransform
    ensures OnScroll(OnScroll(c, down), up).bar.transform == ShownTransform
  {
  }
}

=== FILE: root_theme.dfy ===
/** The theme toggle of script.js: the `data-theme` attribute of the root
    element, the same `theme` storage slot, and an emoji on the one button. */
module RootTheme {
  import opened Wrappers
  import BodyTheme

  const MoonEmoji := "\U{1F319}"
  const SunEmoji := "\U{2600}\U{FE0F}"

  /** The root's `data-theme`, the stored value and the button's text. */
  datatype Page = Page(theme: string, stored: Option<string>, buttonText: string)

  /** `updateToggleIcon`: the moon exactly for 'light'. */
  function ToggleIcon(theme: string): (icon: string)
    ensures icon == MoonEmoji <==> theme == "light"
    ensures icon == SunEmoji <==> theme != "light"
  {
    if theme == "light" then MoonEmoji else SunEmoji
  }

  /** Start-up: `localStorage.getItem('theme') || 'light'` applied to the root
      and drawn on the button. */
  function Startup(p: Page): (r: Page)
    ensures r.stored == p.stored
    ensures p.stored.None? || p.stored == Some("") ==> r.theme == "light"
    ensures p.stored.Some? && p.stored.value != "" ==> r.theme == p.stored.value
    ensures r.buttonText == ToggleIcon(r.theme)
  {
    var saved := if p.stored.Some? && p.stored.value != "" then p.stored.value else "light";
    Page(saved, p.stored, ToggleIcon(saved))
  }

  /** The click handler: 'light' becomes 'dark' and every other value becomes
      'light'; the root and storage receive the same new value and the button
      is redrawn for it. */
  function Toggle(p: Page): (r: Page)
    ensures p.theme == "light" ==> r.theme == "dark"
    ensures p.theme != "light" ==> r.theme == "light"
    ensures r.stored == Some(r.theme)
    ensures r.buttonText == ToggleIcon(r.theme)
  {
    var next := if p.theme == "light" then "dark" else "light";
    Page(next, Some(next), ToggleIcon(next))
  }

  /** Toggling twice from 'light' or 'dark' restores the theme and the button,
      and leaves that theme in storage. */
  lemma ToggleTwiceRestores(p: Page)
    requires p.theme == "light" || p.theme == "dark"
    requires p.buttonText == ToggleIcon(p.theme)
    ensures Toggle(Toggle(p)) == p.(stored := Some(p.theme))
  {
  }

  /** Both pages read the same storage slot the same way, and both toggles swap
      'light' and 'dark'; on any other value they disagree, this one choosing
      'light' where js/script.js chooses 'dark'. */
  lemma TogglesAgreeOnlyOnLightAndDark(stored: Option<string>, theme: string)
    ensures Startup(Page("", stored, "")).theme == BodyTheme.SavedTheme(stored)
    ensures (theme == "light" || theme == "dark") ==>
              Toggle(Page(theme, stored, "")).theme
              == BodyTheme.ToggleTheme(BodyTheme.Page(theme, stored, None, None)).theme
    ensures theme != "light" && theme != "dark" ==>
              && Toggle(Page(theme, stored, "")).theme == "light"
              && BodyTheme.ToggleTheme(BodyTheme.Page(theme, stored, None, None)).theme == "dark"
  {
  }
}

=== FILE: tilt.dfy ===
/** The project-card tilt of script.js, over real numbers: the pointer's
    offset from the card's centre, scaled so that an edge tilts by 8 degrees. */
module CardTilt {

  const MaxTilt: real := 8.0
  const Perspective := 1000

  /** `perspective(1000px) rotateX(..deg) rotateY(..deg) scale(..)`. */
  datatype Transform = Transform(perspective: int, rotateX: real, rotateY: real, scale: real)

  /** The bounding rectangle of a card. */
  datatype Rect = Rect(left: real, top: real, width: real, height: real)

  /** The reset written by `mouseleave`: no rotation, unit scale. */
  const Rest := Transform(Perspective, 0.0, 0.0, 1.0)

  predicate Inside(r: Rect, clientX: real, clientY: real) {
    r.left <= clientX <= r.left + r.width && r.top <= clientY <= r.top + r.height
  }

  /** The `mousemove` listener. With an empty rectangle the division yields
      NaN or an infinity, the browser rejects the declaration and the card
      keeps its previous transform. */
  function OnMouseMove(current: Transform, r: Rect, clientX: real, clientY: real): (t: Transform)
    ensures r.width <= 0.0 || r.height <= 0.0 ==> t == current
    ensures r.width > 0.0 && r.height > 0.0 ==>
              && t.perspective == Perspective && t.scale == 1.05
              && t.rotateX * (r.height / 2.0) == (r.height / 2.0 - (clientY - r.top)) * MaxTilt
              && t.rotateY * (r.width / 2.0) == ((clientX - r.left) - r.width / 2.0) * MaxTilt
              && (t.rotateX > 0.0 <==> clientY - r.top < r.height / 2.0)
              && (t.rotateY > 0.0 <==> clientX - r.left > r.width / 2.0)
  {
    if r.width <= 0.0 || r.height <= 0.0 then current
    else
      var x := clientX - r.left;
      var y := clientY - r.top;
      var centerX := r.width / 2.0;
      var centerY := r.height / 2.0;
      var tiltX := (centerY - y) / centerY * MaxTilt;
      var tiltY := (x - centerX) / centerX * MaxTilt;
      Transform(Perspective, tiltX, tiltY, 1.05)
  }

  /** The `mouseleave` listener: always the same reset. */
  function OnMouseLeave(current: Transform): (t: Transform)
    ensures t.rotateX == 0.0 && t.rotateY == 0.0 && t.scale == 1.0 && t.perspective == Perspective
  {
    Rest
  }

  /** A quotient by a positive number lies in [-1, 1] exactly when the
      numerator lies in [-c, c]. */
  lemma UnitQuotient(a: real, c: real)
    requires c > 0.0
    ensures a / c <= 1.0 <==> a <= c
    ensures -1.0 <= a / c <==> -c <= a
  {
    var q := a / c;
    assert q * c == a;
    if q > 1.0 { assert (q - 1.0) * c > 0.0; }
    if q < -1.0 { assert (-1.0 - q) * c > 0.0; }
    if a > c { assert q > 1.0; }
    if a < -c { assert q < -1.0; }
  }

  /** On a card of positive size both angles lie in [-8, 8] exactly when the
      pointer is inside the card. */
  lemma TiltBoundedIffInside(current: Transform, r: Rect, clientX: real, clientY: real)
    requires r.width > 0.0 && r.height > 0.0
    ensures var t := OnMouseMove(current, r, clientX, clientY);
            (-MaxTilt <= t.rotateX <= MaxTilt && -MaxTilt <= t.rotateY <= MaxTilt)
            <==> Inside(r, clientX, clientY)
  {
    var cx, cy := r.width / 2.0, r.height / 2.0;
    var x, y := clientX - r.left, clientY - r.top;
    UnitQuotient(cy - y, cy);
    UnitQuotient(x - cx, cx);
  }

  /** At the centre of the card there is no rotation. */
  lemma CentreIsFlat(current: Transform, r: Rect)
    requires r.width > 0.0 && r.height > 0.0
    ensures var t := OnMouseMove(current, r, r.left + r.width / 2.0, r.top + r.height / 2.0);
            t.rotateX == 0.0 && t.rotateY == 0.0
  {
  }

  /** Leaving restores the rest transform whatever the last pointer position. */
  lemma LeaveForgetsPointer(current: Transform, r: Rect, x1: real, y1: real, x2: real, y2: real)
    ensures OnMouseLeave(OnMouseMove(current, r, x1, y1)) == OnMouseLeave(OnMouseMove(current, r, x2, y2)) == Rest
  {
  }
}

=== FILE: typing.dfy ===
/** The typing animation of js/script.js as a state machine. `typeText` is one
    tick; the two-second pause before deleting is a separate timer whose firing
    is an event of its own, so no notion of time is needed. */
module TypingAnimator {
  import opened JsText

  /** The phrases the hero banner cycles through. */
  const Phrases: seq<string> := [
    "Cybersecurity Professional",
    "Security Analyst",
    "Threat Detection Expert",
    "Penetration Tester",
    "Security Consultant"
  ]

  const AppendDelay := 100
  const DeleteDelay := 50

  /** The closure's variables, the pause timers still pending, and the text
      currently displayed. `charIndex` is not bounded by the phrase length:
      appending goes on while the pause is pending. */
  datatype Typing = Typing(textIndex: int, charIndex: int, deleting: bool,
                           pendingPauses: nat, delay: int, shown: string)

  datatype Event = Tick | PauseFires

  /** The variables as initialised, before the first call of `typeText`. */
  const Initial := Typing(0, 0, false, 0, AppendDelay, "")

  /** What holds between events: the phrase index is in range, the display is
      the current phrase cut at `charIndex` (clamped), at most one pause is
      pending and only while appending past the end of a non-empty phrase,
      and deleting never starts from an empty prefix. */
  ghost predicate Inv(texts: seq<string>, s: Typing) {
    && 0 <= s.textIndex < |texts|
    && s.charIndex >= 0
    && s.shown == Substring(texts[s.textIndex], 0, s.charIndex)
    && s.pendingPauses <= 1
    && (s.pendingPauses == 1 ==>
          !s.deleting && s.charIndex >= |texts[s.textIndex]| && |texts[s.textIndex]| > 0)
    && (s.deleting ==> s.charIndex >= 1)
  }

  /** One call of `typeText`: in delete mode show one character less, otherwise
      one more; a phrase just completed while appending schedules the pause,
      a prefix just emptied while deleting moves on to the next phrase. */
  function TypeText(texts: seq<string>, s: Typing): (r: Typing)
    requires 0 <= s.textIndex < |texts|
    ensures s.deleting ==> r.charIndex == s.charIndex - 1 && r.delay == DeleteDelay
    ensures !s.deleting ==> r.charIndex == s.charIndex + 1 && r.delay == AppendDelay
    ensures r.shown == Substring(texts[s.textIndex], 0, r.charIndex)
    ensures s.deleting && r.charIndex == 0 ==>
              !r.deleting && r.textIndex == (s.textIndex + 1) % |texts|
    ensures !(s.deleting && r.charIndex == 0) ==>
              r.deleting == s.deleting && r.textIndex == s.textIndex
    ensures r.pendingPauses == s.pendingPauses
              + (if !s.deleting && r.charIndex == |texts[s.textIndex]| then 1 else 0)
  {
    var current := texts[s.textIndex];
    if s.deleting then
      var r := s.(shown := Substring(current, 0, s.charIndex - 1),
                  charIndex := s.charIndex - 1, delay := DeleteDelay);
      if r.charIndex == 0 then r.(deleting := false, textIndex := (s.textIndex + 1) % |texts|)
      else r
    else
      var r := s.(shown := Substring(current, 0, s.charIndex + 1),
                  charIndex := s.charIndex + 1, delay := AppendDelay);
      if r.charIndex == |current| then r.(pendingPauses := r.pendingPauses + 1) else r
  }

  /** The pause timer fires: deleting begins; nothing else changes. */
  function FirePause(s: Typing): (r: Typing)
    requires s.pendingPauses > 0
    ensures r.deleting && r.pendingPauses == s.pendingPauses - 1
    ensures r.(deleting := s.deleting, pendingPauses := s.pendingPauses) == s
  {
    s.(deleting := true, pendingPauses := s.pendingPauses - 1)
  }

  /** One event. A pause that is not pending cannot fire, so it changes nothing. */
  function Step(texts: seq<string>, s: Typing, e: Event): (r: Typing)
    requires 0 <= s.textIndex < |texts|
    ensures 0 <= r.textIndex < |texts|
  {
    match e
    case Tick => TypeText(texts, s)
    case PauseFires => if s.pendingPauses > 0 then FirePause(s) else s
  }

  /** Any sequence of events, in order. */
  function Run(texts: seq<string>, s: Typing, events: seq<Event>): (r: Typing)
    requires 0 <= s.textIndex < |texts|
    ensures 0 <= r.textIndex < |texts|
    decreases |events|
  {
    if events == [] then s else Run(texts, Step(texts, s, events[0]), events[1..])
  }

  /** The first call of `typeText`, made at start-up, establishes the invariant. */
  lemma StartEstablishesInv(texts: seq<string>)
    requires |texts| > 0
    ensures Inv(texts, TypeText(texts, Initial))
  {
    var r := TypeText(texts, Initial);
    assert r.charIndex == 1;
    assert Substring(texts[0], 0, 0) == [];
  }

  lemma TypeTextPreservesInv(texts: seq<string>, s: Typing)
    requires Inv(texts, s)
    ensures Inv(texts, TypeText(texts, s))
  {
    var r := TypeText(texts, s);
    if s.deleting && r.charIndex == 0 {
      assert Substring(texts[s.textIndex], 0, 0) == [];
      assert Substring(texts[r.textIndex], 0, 0) == [];
    }
  }

  lemma FirePausePreservesInv(texts: seq<string>, s: Typing)
    requires Inv(texts, s) && s.pendingPauses > 0
    ensures Inv(texts, FirePause(s))
    ensures FirePause(s).charIndex >= |texts[s.textIndex]|
  {
  }

  /** Every reachable state satisfies the invariant. */
  lemma {:induction false} RunPreservesInv(texts: seq<string>, s: Typing, events: seq<Event>)
    requires Inv(texts, s)
    ensures Inv(texts, Run(texts, s, events))
    decreases |events|
  {
    if events != [] {
      var next := Step(texts, s, events[0]);
      match events[0] {
        case Tick => TypeTextPreservesInv(texts, s);
        case PauseFires => if s.pendingPauses > 0 { FirePausePreservesInv(texts, s); }
      }
      RunPreservesInv(texts, next, events[1..]);
    }
  }

  /** The displayed text is always a prefix of the current phrase. */
  lemma ShownIsPrefix(texts: seq<string>, s: Typing)
    requires Inv(texts, s)
    ensures s.shown <= texts[s.textIndex]
    ensures |s.shown| == Clamp(s.charIndex, |texts[s.textIndex]|)
  {
    SubstringFromZeroIsPrefix(texts[s.textIndex], s.charIndex);
  }

  /** `n` ticks and no other event. */
  function Ticks(texts: seq<string>, s: Typing, n: nat): (r: Typing)
    requires 0 <= s.textIndex < |texts|
    ensures 0 <= r.textIndex < |texts|
    decreases n
  {
    if n == 0 then s else Ticks(texts, TypeText(texts, s), n - 1)
  }

  /** Deleting from `charIndex` takes exactly `charIndex` ticks, each lowering
      `charIndex` by one (after an overshoot the first ones leave the display
      unchanged), and then appending resumes at the start of the next phrase. */
  lemma {:induction false} DeletionReachesNextPhrase(texts: seq<string>, s: Typing)
    requires Inv(texts, s) && s.deleting
    ensures var r := Ticks(texts, s, s.charIndex);
            && !r.deleting && r.charIndex == 0 && r.shown == []
            && r.textIndex == (s.textIndex + 1) % |texts|
            && r.pendingPauses == 0 && Inv(texts, r)
    decreases s.charIndex
  {
    var next := TypeText(texts, s);
    TypeTextPreservesInv(texts, s);
    if s.charIndex > 1 {
      DeletionReachesNextPhrase(texts, next);
    }
  }

  /** Appending from inside a non-empty phrase takes exactly the missing
      number of ticks to complete it, and the tick that completes it
      schedules the pause. */
  lemma {:induction false} AppendReachesPause(texts: seq<string>, s: Typing)
    requires Inv(texts, s) && !s.deleting && s.pendingPauses == 0
    requires s.charIndex < |texts[s.textIndex]|
    ensures var r := Ticks(texts, s, |texts[s.textIndex]| - s.charIndex);
            && r.textIndex == s.textIndex && !r.deleting
            && r.charIndex == |texts[s.textIndex]| && r.pendingPauses == 1
            && r.shown == texts[s.textIndex] && Inv(texts, r)
    decreases |texts[s.textIndex]| - s.charIndex
  {
    var next := TypeText(texts, s);
    TypeTextPreservesInv(texts, s);
    if next.charIndex < |texts[s.textIndex]| {
      AppendReachesPause(texts, next);
    } else {
      assert Ticks(texts, next, 0) == next;
    }
  }

  /** While the pause is pending the whole phrase is displayed, and a further
      tick pushes `charIndex` past the phrase length without changing the
      display or scheduling a second pause. */
  lemma PendingPauseOvershoots(texts: seq<string>, s: Typing)
    requires Inv(texts, s) && s.pendingPauses == 1
    ensures s.shown == texts[s.textIndex]
    ensures var r := TypeText(texts, s);
            && r.shown == texts[s.textIndex] && r.charIndex > |texts[s.textIndex]|
            && r.pendingPauses == 1 && !r.deleting
  {
    SubstringFromZeroIsPrefix(texts[s.textIndex], s.charIndex);
    SubstringFromZeroIsPrefix(texts[s.textIndex], s.charIndex + 1);
  }

  /** Every phrase of the site is non-empty, so each one is typed to its end
      and paused on; and the start-up call begins in a state of the invariant. */
  lemma SitePhrasesReachPause()
    ensures forall i :: 0 <= i < |Phrases| ==> |Phrases[i]| > 0
    ensures Inv(Phrases, TypeText(Phrases, Initial))
  {
    StartEstablishesInv(Phrases);
  }

  /** The invariant does not bound `charIndex` by the phrase length: one tick
      after "ab" is complete, with the pause still pending, `charIndex` is 3
      while the display stays "ab". */
  lemma CharIndexOvershootsPhrase()
    ensures var s := Ticks(["ab"], Initial, 3);
            && s.charIndex == 3 && s.pendingPauses == 1 && !s.deleting && s.shown == "ab"
  {
    var s1 := TypeText(["ab"], Initial);
    var s2 := TypeText(["ab"], s1);
    var s3 := TypeText(["ab"], s2);
    assert s2.pendingPauses == 1;
    assert Ticks(["ab"], s3, 0) == s3;
    assert Ticks(["ab"], Initial, 3) == s3;
  }
}

=== FILE: wrappers.dfy ===
/** A value that may be absent: a missing DOM element, an empty storage slot. */
module Wrappers {

  datatype Option<+T> = None | Some(value: T)
}
